=== FILE: README.md ===
# WinRTXamlToolkit: grid splitter and NumericUpDown, modelled in Dafny

This project models the layout and range arithmetic of two WinRTXamlToolkit
controls as pure functions over plain records. The values the UI framework
supplies become parameters: alignment, sizes, the key pressed, the pointer
translation and the window bounds.

**CustomGridSplitter.** A splitter sits in a row or column of a `Grid`. When
it is dragged or moved with an arrow key, it moves space between two
neighbouring row or column definitions. One step works like this:

- It resolves the effective resize direction (`GridResizeMode.EffectiveDirection`).
- It resolves the effective resize behaviour (`GridResizeMode.EffectiveBehavior`).
- It picks the pair of definition indices (`GridResizeMode.IndexPair`).
- It clamps the delta against both definitions' minimum and maximum sizes
  (`GridDefinitions.ClampDelta`).
- It writes the new lengths back, either as pixel lengths or as re-weighted
  star lengths (`GridDefinitions.ResizePair`).

`ResizeRows` is a line-for-line mirror of `ResizeColumns` with heights in
place of widths. So one parametric resize over a `seq<Definition>` serves
both, and `GridSplitter.ResizeColumns` and `GridSplitter.ResizeRows` only
choose which definitions and which grid size to pass to it. A maximum of
positive infinity, which is the framework default, is `None`.

**NumericUpDown.** This part covers:

- the increment and decrement buttons;
- dragging over the control, which picks the dominant axis and accumulates
  the delta (`_unusedManipulationDelta`);
- scaling the delta by the smaller window side, with 768 when there is no
  window;
- the value bar clip;
- the read-only visibility rule for the buttons.

Every path through the drag step resets the accumulator. As a result, no
drag is ever carried into the next event, and the accumulation branch only
ever adds to zero (`NumericUpDown.Accumulate`).

All lengths and values are `real`, in place of `double`.

Files:

- `wrappers.dfy`: `Option` and `Result`.
- `geometry.dfy`: the framework's `Point`, which both controls receive.
- `real_arith.dfy`: named facts about products and quotients of reals, used
  by the proofs.
- `grid_resize_mode.dfy`: the enums, direction and behaviour resolution, and
  the index pair.
- `grid_definitions.dfy`: definitions, clamping, star measures, and the resize
  step.
- `grid_splitter.dfy`: the splitter and grid records, the column and row
  resize, the keyboard handling and the direct drag.
- `numeric_up_down.dfy`: the NumericUpDown control.

## Model

| member | source | states |
|---|---|---|
| GridResizeMode.EffectiveDirection | WinRTXamlToolkit/Controls/CustomGridSplitter/CustomGridSplitter.cs:258-310 | An explicit Columns or Rows direction is returned unchanged. For Auto, the result is Columns exactly when the horizontal alignment is not Stretch, or when both alignments are Stretch and ActualWidth ≤ ActualHeight; otherwise it is Rows. The result is never Auto. |
| GridResizeMode.EffectiveBehavior | WinRTXamlToolkit/Controls/CustomGridSplitter/CustomGridSplitter.cs:313-400 | An explicit behaviour is returned unchanged, and the result is never BasedOnAlignment. For rows, the result is PreviousAndCurrent exactly when the vertical alignment is Top, and CurrentAndNext exactly when it is Bottom. For columns, the same holds with Left and Right. Every other case gives PreviousAndNext. |
| GridResizeMode.IndexPair | WinRTXamlToolkit/Controls/CustomGridSplitter/CustomGridSplitter.cs:805-823 | The second index is 1 or 2 greater than the first, and the pair encloses the splitter's cell. The gap is 2 exactly for PreviousAndNext. The pair starts at the cell exactly for the non-Previous behaviours, and it ends at the cell exactly for PreviousAndCurrent. |
| GridResizeMode.PreviousBehaviorsReachBack | WinRTXamlToolkit/Controls/CustomGridSplitter/CustomGridSplitter.cs:809-823 | The first index lies below the cell exactly for the two Previous behaviours, and then it is cell − 1. |
| GridResizeMode.StretchedSplitterStraddles | WinRTXamlToolkit/Controls/CustomGridSplitter/CustomGridSplitter.cs:362-370 | When the behaviour is BasedOnAlignment and both alignments are Stretch, the result is always PreviousAndNext, whatever the direction resolves to. |
| GridSplitter.EffectiveDirection | WinRTXamlToolkit/Controls/CustomGridSplitter/CustomGridSplitter.cs:767-768 | The direction is resolved from the splitter's own properties and is never Auto. An explicit ResizeDirection is kept. For Auto, it is Columns exactly when HorizontalAlignment is not Stretch, or when both alignments are Stretch and ActualWidth ≤ ActualHeight. |
| GridSplitter.EffectiveBehavior | WinRTXamlToolkit/Controls/CustomGridSplitter/CustomGridSplitter.cs:802-803 | The behaviour is resolved from the splitter's own properties and is never BasedOnAlignment. An explicit ResizeBehavior is kept. For BasedOnAlignment along rows, it is PreviousAndCurrent exactly for Top and CurrentAndNext exactly for Bottom; along columns, the same holds for Left and Right. |
| GridDefinitions.ClampDelta | WinRTXamlToolkit/Controls/CustomGridSplitter/CustomGridSplitter.cs:841-868 | From any state, the clamped delta lies between 0 and the requested delta. If the second definition starts at or above its minimum, it never ends below it. If both definitions start within their limits, both stay within them, and the clamped delta equals the request exactly when the request already fits. |
| GridDefinitions.ClampDeltaIsProjection | WinRTXamlToolkit/Controls/CustomGridSplitter/CustomGridSplitter.cs:842-868 | From a state within limits, the four sequential clamps project the request onto the interval of deltas that both definitions allow, and that interval contains 0. |
| GridDefinitions.TargetSizes | WinRTXamlToolkit/Controls/CustomGridSplitter/CustomGridSplitter.cs:870-871 | Conservation: the two new sizes add up to the two old actual sizes. The minimum-size and within-limits guarantees of the clamp carry over to these sizes. |
| GridDefinitions.MeasureStars | WinRTXamlToolkit/Controls/CustomGridSplitter/CustomGridSplitter.cs:875-897 | The loop returns the summed star weight and the grid size minus every non-star definition's actual size. |
| GridDefinitions.OneSidedStar | WinRTXamlToolkit/Controls/CustomGridSplitter/CustomGridSplitter.cs:933-949 | A star definition next to a non-star one keeps its length when there is less than one pixel of room; otherwise it stays a star with a non-negative weight. Its size and limits are kept in both cases. |
| GridDefinitions.OneSidedRoomIgnoresDelta | WinRTXamlToolkit/Controls/CustomGridSplitter/CustomGridSplitter.cs:933-938 | The room that the one-sided guard tests does not depend on the delta: it is the star space minus the star definition's own actual size. |
| GridDefinitions.ShareStarWeight | WinRTXamlToolkit/Controls/CustomGridSplitter/CustomGridSplitter.cs:915-929 | Only the two star definitions are written. The first takes the given weight. The second weight is never negative, and it is exactly 0 when the cut-off applies. The pair's summed weight never decreases, and it is kept exactly when the cut-off at zero does not apply. |
| GridDefinitions.StarShare | WinRTXamlToolkit/Controls/CustomGridSplitter/CustomGridSplitter.cs:916-919 | The new first star weight is never negative. When the total weight times the new size is non-negative, the weight times the star space equals that product: the star's share of the total weight is its new size's share of the star space. Otherwise the weight is 0. |
| GridDefinitions.ShareStarWeightKeepsTotal | WinRTXamlToolkit/Controls/CustomGridSplitter/CustomGridSplitter.cs:903-906 | When the second weight is not cut off at zero, the grid's total star weight is unchanged. |
| GridDefinitions.ResizePair | WinRTXamlToolkit/Controls/CustomGridSplitter/CustomGridSplitter.cs:830-989 | Only the two definitions of the pair are written, and only their lengths; sizes, limits and star-ness are kept. Non-star definitions get their target sizes as pixel lengths. Two star definitions change nothing when less than one pixel is left to stars. Otherwise the first takes the `StarShare` of its target size and the second gives up the difference. A one-sided star without room keeps its length. These write rules are collected in the predicate `GridDefinitions.PairWritten`. |
| GridDefinitions.ResizeAsWritten | WinRTXamlToolkit/Controls/CustomGridSplitter/CustomGridSplitter.cs:800-830 | If the second index is past the end, nothing changes. A successful step on a pair inside the definitions writes the pair as `GridDefinitions.ResizePair` describes, using the given grid size and delta. The step fails, with index −1, exactly when the cell is 0, the behaviour is a Previous one, and the second index is in range. |
| GridDefinitions.FirstCellPreviousBehaviorFails | WinRTXamlToolkit/Controls/CustomGridSplitter/CustomGridSplitter.cs:811-830 | With at least two definitions, PreviousAndCurrent or PreviousAndNext on cell 0 reads index −1. |
| GridDefinitions.Resize | WinRTXamlToolkit/Controls/CustomGridSplitter/CustomGridSplitter.cs:805-828 | The corrected step. It keeps the length of the sequence and keeps every definition outside the pair. It is a no-op when either index is out of range. A pair inside the definitions is written as `GridDefinitions.ResizePair` describes, using the given grid size and delta. It keeps every definition's size, limits and star-ness. It equals the toolkit's step wherever that step succeeds. |
| GridDefinitions.StarWeightUpdate | WinRTXamlToolkit/Controls/CustomGridSplitter/CustomGridSplitter.cs:883-890 | Replacing one definition changes the star total by the difference of its old and new weight. |
| GridDefinitions.ResizeKeepsStarAvailable | WinRTXamlToolkit/Controls/CustomGridSplitter/CustomGridSplitter.cs:875-896 | A resize step never changes the space that the grid leaves to its star definitions. |
| GridDefinitions.BothStarKeepsTotalWeight | WinRTXamlToolkit/Controls/CustomGridSplitter/CustomGridSplitter.cs:899-930 | When two star definitions are resized against each other, the grid's total star weight is unchanged unless the second weight was cut off at zero. |
| GridSplitter.ResizeColumns | WinRTXamlToolkit/Controls/CustomGridSplitter/CustomGridSplitter.cs:800-992 | Rows and the grid's size are untouched, the number of columns is kept, and only the two columns of the effective pair can change. A pair outside the grid leaves it unchanged. A pair inside it is written as one step with the grid's ActualWidth as the space: pixel target sizes for non-star columns, and the star share of the target size for two star columns. |
| GridSplitter.ResizeRows | WinRTXamlToolkit/Controls/CustomGridSplitter/CustomGridSplitter.cs:996-1188 | The mirror image for rows: columns and the grid's size are untouched, and only the two rows of the pair can change. A pair outside the grid leaves it unchanged. A pair inside it is written as one step with the grid's ActualHeight as the space (:1072). |
| GridSplitter.KeyboardDelta | WinRTXamlToolkit/Controls/CustomGridSplitter/CustomGridSplitter.cs:770-795 | A delta is produced exactly for Left or Right with Columns, and for Up or Down otherwise. Left and Up give −increment; Right and Down give +increment. |
| GridSplitter.OnKeyDown | WinRTXamlToolkit/Controls/CustomGridSplitter/CustomGridSplitter.cs:763-796 | A key is handled exactly when it is an arrow along the effective direction. An unhandled key leaves the grid unchanged. A handled key resizes columns or rows by ∓ the keyboard increment. |
| GridSplitter.LeftKeyMovesBoundaryByIncrement | WinRTXamlToolkit/Controls/CustomGridSplitter/CustomGridSplitter.cs:772-776 | Left between two non-star columns that are within their limits and can give and take one increment writes them as pixel lengths, exactly one increment smaller and one increment larger. |
| GridSplitter.UpKeyMovesBoundaryByIncrement | WinRTXamlToolkit/Controls/CustomGridSplitter/CustomGridSplitter.cs:785-789 | The mirror for rows: Up between two non-star rows that are within their limits and can give and take one increment writes them as pixel lengths, exactly one increment smaller and one increment larger. |
| GridSplitter.ContinueDirectDragging | WinRTXamlToolkit/Controls/CustomGridSplitter/CustomGridSplitter.cs:724-736 | With the Columns direction captured, the rows are kept; otherwise the columns are kept. A move to the same position resizes by zero. |
| GridSplitter.DragFollowsDisplacement | WinRTXamlToolkit/Controls/CustomGridSplitter/CustomGridSplitter.cs:724-736 | Two pointer moves with the same displacement along the captured axis give the same grid, wherever they start and whatever they do across that axis. |
| GridSplitter.DragByIncrementIsColumnKey | WinRTXamlToolkit/Controls/CustomGridSplitter/CustomGridSplitter.cs:724-736 | With Columns captured, a drag of −KeyboardIncrement in x gives the same grid as the Left key, and +KeyboardIncrement gives the same grid as the Right key. |
| GridSplitter.DragByIncrementIsRowKey | WinRTXamlToolkit/Controls/CustomGridSplitter/CustomGridSplitter.cs:724-736 | With Rows captured, a drag of −KeyboardIncrement in y gives the same grid as the Up key, and +KeyboardIncrement gives the same grid as the Down key. |
| NumericUpDown.IncrementClick | WinRTXamlToolkit/Controls/NumericUpDown.cs:282-285 | The value rises by SmallChange and nothing else changes. |
| NumericUpDown.DecrementClick | WinRTXamlToolkit/Controls/NumericUpDown.cs:273-276 | The value falls by SmallChange and nothing else changes. |
| NumericUpDown.ClicksCancel | WinRTXamlToolkit/Controls/NumericUpDown.cs:273-285 | One increment click and one decrement click, in either order, restore the control, as the handlers assign the value, before RangeBase coerces it. |
| NumericUpDown.DragDelta | WinRTXamlToolkit/Controls/NumericUpDown.cs:310-320 | The delta is the X translation or the negated Y translation, whichever is larger in magnitude; a tie goes to −Y. |
| NumericUpDown.Accumulate | WinRTXamlToolkit/Controls/NumericUpDown.cs:327-330 | A new delta with the same sign as the unused one is added to it; a delta of any other sign replaces it. The result has the sign of the new delta, and it equals the new delta when nothing is unused. |
| NumericUpDown.ScreenDimension | WinRTXamlToolkit/Controls/NumericUpDown.cs:344-353 | The result is positive. It is 768 without a window, and otherwise the smaller side of the window. |
| NumericUpDown.ApplyManipulationDelta | WinRTXamlToolkit/Controls/NumericUpDown.cs:325-371 | Every path resets the accumulator, and nothing but the value changes otherwise. A value at the maximum with a delta ≥ 0, or at the minimum with a delta ≤ 0, stays put. Otherwise the value change times d equals (Maximum − Minimum) times the accumulated delta. |
| NumericUpDown.OnDragOverlayManipulationDelta | WinRTXamlToolkit/Controls/NumericUpDown.cs:305-323 | A disabled control is unchanged. An enabled one applies the dominant-axis delta. |
| NumericUpDown.DragFollowsPointer | WinRTXamlToolkit/Controls/NumericUpDown.cs:332-369 | For Minimum ≤ Maximum, a delta ≥ 0 never lowers the value and a delta ≤ 0 never raises it. |
| NumericUpDown.FullDragSweepsRange | WinRTXamlToolkit/Controls/NumericUpDown.cs:344-369 | From a reset accumulator below the maximum, a drag across the whole smaller window side moves the value by exactly Maximum − Minimum. |
| NumericUpDown.ApplyManipulationDeltas | WinRTXamlToolkit/Controls/NumericUpDown.cs:325-371 | A session of one or more events leaves the accumulator at 0, and nothing but the value changes otherwise. |
| NumericUpDown.SessionsCompose | WinRTXamlToolkit/Controls/NumericUpDown.cs:325-371 | Running two sessions one after the other is the same as running all their events as one session, so every event is applied, in order. |
| NumericUpDown.SingleEventSession | WinRTXamlToolkit/Controls/NumericUpDown.cs:325-371 | A session of one event is exactly that event's drag step. |
| NumericUpDown.UpwardSessionNeverLowers | WinRTXamlToolkit/Controls/NumericUpDown.cs:325-371 | For Minimum ≤ Maximum, a session whose deltas are all ≥ 0 never lowers the value. |
| NumericUpDown.ClipWidth | WinRTXamlToolkit/Controls/NumericUpDown.cs:420 | The width is finite exactly when Maximum ≠ Minimum. A finite width times (Maximum − Minimum) equals ActualWidth times (Value − Minimum), so the bar fills in proportion to the value's place in the range. It is 0 at the minimum and the full bar width at the maximum. Within an ordered range it lies between 0 and the bar width. |
| NumericUpDown.ClipWidthMonotone | WinRTXamlToolkit/Controls/NumericUpDown.cs:420 | A larger value never fills less of the bar. |
| NumericUpDown.UpdateValueBarAsWritten | WinRTXamlToolkit/Controls/NumericUpDown.cs:394-423 | A missing bar stays missing. Collapsed hides the bar and keeps its clip. Visible and Auto set the clip to the filled width and leave the visibility alone. |
| NumericUpDown.CollapsedValueBarStaysHidden | WinRTXamlToolkit/Controls/NumericUpDown.cs:406-422 | Once the bar has been collapsed, a later update with any setting leaves it hidden. |
| NumericUpDown.UpdateValueBar | WinRTXamlToolkit/Controls/NumericUpDown.cs:399-422 | The corrected update. The bar is hidden exactly when the setting is Collapsed, with Auto treated as Visible. A shown bar is clipped to the filled width, a hidden bar keeps its clip, and the bar's size is kept. |
| NumericUpDown.UpdateValueBarRestoresOnlyVisibility | WinRTXamlToolkit/Controls/NumericUpDown.cs:399-422 | The corrected update differs from the written one only in the bar's visibility, and a second update with the same inputs changes nothing. |
| NumericUpDown.UpdateIsReadOnlyDependants | WinRTXamlToolkit/Controls/NumericUpDown.cs:440-451 | A missing button stays missing. A present button is Collapsed exactly when IsReadOnly is true, and Visible otherwise. |
| NumericUpDown.ReadOnlyButtonsAgree | WinRTXamlToolkit/Controls/NumericUpDown.cs:442-450 | Both buttons end up with the same visibility, whatever they had before. |

## Findings

| source | as written | input that shows it | evidently intended | confidence | as-written member | corrected member |
|---|---|---|---|---|---|---|
| WinRTXamlToolkit/Controls/CustomGridSplitter/CustomGridSplitter.cs:825-830 | Only the second index is checked before both definitions are read, so the first index −1 is used unguarded. | Splitter in column 0, ResizeBehavior PreviousAndCurrent (or BasedOnAlignment with HorizontalAlignment Left), grid with 2 columns, effective direction Columns, then the Left or Right key (:772-781) or a horizontal direct drag (:726-729): the step reads `ColumnDefinitions[-1]`. | A pair that does not lie inside the definitions is a no-op, the same as a second index past the end. | high, not executed | GridDefinitions.ResizeAsWritten | GridDefinitions.Resize |
| WinRTXamlToolkit/Controls/NumericUpDown.cs:406-422 | The Collapsed branch sets the bar's Visibility to Collapsed, but the other branch never sets it back. | Set ValueBarVisibility to Collapsed, then to Visible or Auto: the bar stays hidden. | The bar is shown again whenever the setting is not Collapsed. | medium, not executed | NumericUpDown.CollapsedValueBarStaysHidden | NumericUpDown.UpdateValueBar |

The rest of the model uses the corrected members. `GridSplitter.ResizeColumns`
and `GridSplitter.ResizeRows` resize through `GridDefinitions.Resize`.

## Left out

- Pointer capture, focus, and the bookkeeping of the drag session and
  pointer IDs (CustomGridSplitter.cs:505-757). These are framework event
  wiring. Only the per-move step `ContinueDirectDragging` is modelled, with
  the direction captured at pointer press as a parameter.
- The preview popup, which builds a copy grid and copies its lengths back
  afterwards (CustomGridSplitter.cs:541-689). This is visual-tree
  manipulation.
- Cursor and visual-state selection (CustomGridSplitter.cs:404-417,
  476-497). These only call framework APIs.
- `GetGrid` throwing when the parent is not a Grid. The model takes the
  grid as a parameter.
- GridDefinitions.OneSidedStar: the re-weighting formula of a star
  definition next to a non-star one is transcribed, but nothing is proved
  about it beyond its `>= 1` guard. Its meaning depends on the host grid's
  layout pass.
- Layout: a resize step writes lengths only, and actual sizes change only
  in the framework's next layout pass. Because of this, no lemma chains two
  steps through new actual sizes.
- The source sums the star weights and subtracts the non-star sizes only
  when one of the pair is a star. The model always computes them; they are
  unused otherwise, so the written definitions are the same.
- IEEE-754 behaviour: rounding, NaN and infinities. Lengths and values are
  `real`. A maximum of positive infinity is `None`. A value-bar width that
  divides by an empty range is `NotFinite`.
- NumericUpDown.ScreenDimension: requires a window with positive sides,
  for the reason given on the next line.
- NumericUpDown.ApplyManipulationDelta: requires a window with positive
  sides. The source divides by the smaller side without a guard; a live
  window's bounds are positive.
- NumericUpDown.IncrementClick: RangeBase coerces Value into
  [Minimum, Maximum], but that coercion is not in the modelled code. The
  model keeps Value exactly as the handlers assign it, in the drag step as
  well.
- Text handling in NumericUpDown: culture-aware `double.TryParse` and
  `Value.ToString(ValueFormat)` are foreign formatting calls. Text-box focus
  and tapping are UI plumbing.
- `NumericUpDownAcceleration` and its collection. They carry no behaviour.
- FrameworkElementExtensions.cs, MediaElementExtensions.cs,
  MediaPlayerExtensions.cs, CalendarSelectionMode.cs, ScaledImageFile.cs,
  the debugging tool and the sample app. These are framework event
  subscriptions, asynchronous waits, a bare enum, file I/O, reflection and
  demo UI; none of them is part of this model.

=== FILE: geometry.dfy ===
/** The framework's plain geometry values that both controls receive. */
module Geometry {

  /** A point, or a translation between two points, in device-independent
      pixels; screen y grows downwards. */
  datatype Point = Point(x: real, y: real)
}

=== FILE: grid_definitions.dfy ===
/** The arithmetic of one CustomGridSplitter step over a sequence of row or
    column definitions: clamp the requested delta against the limits of the
    two definitions that share the space, then write their new lengths back,
    as pixel lengths or as re-weighted star lengths.  Rows and columns run the
    same code with heights in place of widths, so one model serves both. */
module GridDefinitions {
  import opened Wrappers
  import Mode = GridResizeMode
  import RealArith

  /** How a definition's declared length is measured. */
  datatype GridUnitType = Auto | Pixel | Star

  /** A declared length: a pixel count, a star weight, or Auto. */
  datatype GridLength = GridLength(value: real, gridUnitType: GridUnitType)

  /** A row or column definition: its declared length, the size the last
      layout pass gave it, and its limits.  A `None` maximum is the
      framework's default of positive infinity. */
  datatype Definition = Definition(length: GridLength, actualSize: real, minSize: real, maxSize: Option<real>)
  {
    predicate IsStar() {
      length.gridUnitType == Star
    }

    /** Whether `size` lies within this definition's limits. */
    predicate Admits(size: real) {
      minSize <= size && (maxSize.None? || size <= maxSize.value)
    }

    predicate WithinLimits() {
      Admits(actualSize)
    }

    /** Same actual size, same limits, same kind (star or not): everything a
        resize step leaves alone, whatever length it writes. */
    predicate SameLayout(other: Definition) {
      && actualSize == other.actualSize
      && minSize == other.minSize
      && maxSize == other.maxSize
      && IsStar() == other.IsStar()
    }
  }

  /** The failure the toolkit lets escape: indexing the definitions at -1. */
  datatype ResizeError = IndexOutOfRange(index: int)

  function Max(a: real, b: real): real {
    if a >= b then a else b
  }

  function Min(a: real, b: real): real {
    if a <= b then a else b
  }

  /** `size > max`, where an absent maximum is infinite and never exceeded. */
  predicate Exceeds(size: real, max: Option<real>) {
    max.Some? && size > max.value
  }

  /** Clamps the delta by which `first` grows (and `second` shrinks) against
      both definitions' limits, in the toolkit's order: first's maximum, first's
      minimum, second's maximum, second's minimum; a later clamp overrides an
      earlier one.  From any state the result never moves further than or
      against the request.  When both definitions start within their limits,
      the result keeps both within them and is the request itself exactly when
      the request already fits. */
  function ClampDelta(first: Definition, second: Definition, delta: real): (d: real)
    ensures second.actualSize >= second.minSize ==> second.actualSize - d >= second.minSize
    ensures first.WithinLimits() && second.WithinLimits() ==>
      first.Admits(first.actualSize + d) && second.Admits(second.actualSize - d)
    ensures 0.0 <= d <= delta || delta <= d <= 0.0
    ensures first.WithinLimits() && second.WithinLimits() ==>
      (d == delta <==> first.Admits(first.actualSize + delta) && second.Admits(second.actualSize - delta))
  {
    var d1 := if Exceeds(first.actualSize + delta, first.maxSize)
              then Max(0.0, first.maxSize.value - first.actualSize) else delta;
    var d2 := if first.actualSize + d1 < first.minSize
              then Min(0.0, first.minSize - first.actualSize) else d1;
    var d3 := if Exceeds(second.actualSize - d2, second.maxSize)
              then -Max(0.0, second.maxSize.value - second.actualSize) else d2;
    if second.actualSize - d3 < second.minSize
    then -Min(0.0, second.minSize - second.actualSize) else d3
  }

  /** The smallest delta both limits allow. */
  function LowestDelta(first: Definition, second: Definition): real {
    if second.maxSize.None? then first.minSize - first.actualSize
    else Max(first.minSize - first.actualSize, second.actualSize - second.maxSize.value)
  }

  /** The largest delta both limits allow. */
  function HighestDelta(first: Definition, second: Definition): real {
    if first.maxSize.None? then second.actualSize - second.minSize
    else Min(first.maxSize.value - first.actualSize, second.actualSize - second.minSize)
  }

  /** Projection of `x` onto the interval [lo, hi]. */
  function Clamp(x: real, lo: real, hi: real): real {
    if x < lo then lo else if x > hi then hi else x
  }

  /** Reference definition of the clamp: from a state within limits, the
      four sequential clamps amount to projecting the request onto the interval
      of deltas both definitions allow. */
  lemma ClampDeltaIsProjection(first: Definition, second: Definition, delta: real)
    requires first.WithinLimits() && second.WithinLimits()
    ensures LowestDelta(first, second) <= 0.0 <= HighestDelta(first, second)
    ensures ClampDelta(first, second, delta)
         == Clamp(delta, LowestDelta(first, second), HighestDelta(first, second))
  {
  }

  /** The sizes the two definitions are resized to.  Space only moves between
      them: the two sizes always add up to what they added up to before. */
  function TargetSizes(first: Definition, second: Definition, delta: real): (r: (real, real))
    ensures r.0 + r.1 == first.actualSize + second.actualSize
    ensures second.actualSize >= second.minSize ==> r.1 >= second.minSize
    ensures first.WithinLimits() && second.WithinLimits() ==> first.Admits(r.0) && second.Admits(r.1)
  {
    var d := ClampDelta(first, second, delta);
    (first.actualSize + d, second.actualSize - d)
  }

  /** The star weight a definition contributes to the total. */
  function Weight(def: Definition): real {
    if def.IsStar() then def.length.value else 0.0
  }

  /** The actual size a definition takes from the space stars can share. */
  function Fixed(def: Definition): real {
    if def.IsStar() then 0.0 else def.actualSize
  }

  /** The summed weight of all star definitions. */
  function StarWeight(defs: seq<Definition>): real {
    if |defs| == 0 then 0.0 else StarWeight(defs[..|defs| - 1]) + Weight(defs[|defs| - 1])
  }

  /** The summed actual size of all non-star definitions. */
  function FixedSize(defs: seq<Definition>): real {
    if |defs| == 0 then 0.0 else FixedSize(defs[..|defs| - 1]) + Fixed(defs[|defs| - 1])
  }

  /** The space the grid leaves to its star definitions. */
  function StarAvailable(defs: seq<Definition>, gridSize: real): real {
    gridSize - FixedSize(defs)
  }

  /** The single pass over the definitions that sums the star weights and
      subtracts every other definition's actual size from the grid's size. */
  method MeasureStars(defs: seq<Definition>, gridSize: real)
    returns (totalStarWeight: real, starAvailable: real)
    ensures totalStarWeight == StarWeight(defs)
    ensures starAvailable == StarAvailable(defs, gridSize)
  {
    totalStarWeight := 0.0;
    starAvailable := gridSize;
    var i := 0;
    while i < |defs|
      invariant 0 <= i <= |defs|
      invariant totalStarWeight == StarWeight(defs[..i])
      invariant starAvailable == gridSize - FixedSize(defs[..i])
    {
      assert defs[..i + 1][..i] == defs[..i];
      if defs[i].IsStar() {
        totalStarWeight := totalStarWeight + defs[i].length.value;
      } else {
        starAvailable := starAvailable - defs[i].actualSize;
      }
      i := i + 1;
    }
    assert defs[..i] == defs;
  }

  /** The new length of a star definition resized next to a non-star one: its
      weight is re-derived from the other stars' weight per pixel, but only
      when at least one pixel of star space lies outside it (`room`). */
  function OneSidedStar(def: Definition, room: real, othersWeight: real, newSize: real): (r: Definition)
    requires def.IsStar()
    ensures r.SameLayout(def)
    ensures room < 1.0 ==> r == def
    ensures room >= 1.0 ==> r.IsStar() && r.length.value >= 0.0
  {
    if room >= 1.0
    then def.(length := GridLength(Max(0.0, othersWeight * newSize / room), Star))
    else def
  }

  /** The star space left outside the resized star definition once the step
      is taken.  The pair's sizes add up to the same total before and after,
      so this does not depend on the delta: it is the star space minus the
      star definition's own current size. */
  lemma OneSidedRoomIgnoresDelta(defs: seq<Definition>, i: int, j: int, gridSize: real, delta: real)
    requires 0 <= i < j < |defs|
    ensures var t := TargetSizes(defs[i], defs[j], delta);
      StarAvailable(defs, gridSize) + defs[j].actualSize - t.1 - t.0
        == StarAvailable(defs, gridSize) - defs[i].actualSize
    ensures var t := TargetSizes(defs[i], defs[j], delta);
      StarAvailable(defs, gridSize) + defs[i].actualSize - t.0 - t.1
        == StarAvailable(defs, gridSize) - defs[j].actualSize
  {
  }

  /** What one step writes into the pair (`i`, `j`) of `defs`, resized by
      `delta` in a grid of size `gridSize`, to give `r`.  A non-star definition
      gets its target size as a pixel length.  Two star definitions change
      nothing when less than one pixel is left to stars; otherwise the first
      takes its target size's share of the total star weight and the second
      gives up the difference.  A star definition next to a non-star one keeps
      its length when less than one pixel of star space lies outside it. */
  predicate PairWritten(defs: seq<Definition>, i: int, j: int, gridSize: real, delta: real, r: seq<Definition>)
    requires 0 <= i < j < |defs| == |r|
  {
    var sizes := TargetSizes(defs[i], defs[j], delta);
    var available := StarAvailable(defs, gridSize);
    && (!defs[i].IsStar() ==> r[i].length == GridLength(sizes.0, Pixel))
    && (!defs[j].IsStar() ==> r[j].length == GridLength(sizes.1, Pixel))
    && (defs[i].IsStar() && defs[j].IsStar() && available < 1.0 ==> r == defs)
    && (defs[i].IsStar() && defs[j].IsStar() && available >= 1.0 ==>
          r == ShareStarWeight(defs, i, j, StarShare(StarWeight(defs), sizes.0, available)))
    && (defs[i].IsStar() && !defs[j].IsStar() && available - defs[i].actualSize < 1.0 ==> r[i] == defs[i])
    && (defs[j].IsStar() && !defs[i].IsStar() && available - defs[j].actualSize < 1.0 ==> r[j] == defs[j])
  }

  /** Resizes definitions `i` and `j` by `delta` within a grid of size
      `gridSize`.  Only those two definitions are written, and only their
      lengths: actual sizes, limits and the star/non-star kind of every
      definition are kept.  A non-star definition gets its target size as a
      pixel length.  Two star definitions change nothing when less than one
      pixel is left to stars; otherwise they trade weight, the first taking a
      non-negative weight (its new size's share of the star space) and the
      second giving up the difference.  A star definition next to a non-star
      one is left alone when less than one pixel of star space lies outside
      it. */
  function ResizePair(defs: seq<Definition>, i: int, j: int, gridSize: real, delta: real): (r: seq<Definition>)
    requires 0 <= i < j < |defs|
    ensures |r| == |defs|
    ensures forall k :: 0 <= k < |defs| && k != i && k != j ==> r[k] == defs[k]
    ensures forall k :: 0 <= k < |defs| ==> r[k].SameLayout(defs[k])
    ensures PairWritten(defs, i, j, gridSize, delta, r)
  {
    var first := defs[i];
    var second := defs[j];
    var sizes := TargetSizes(first, second, delta);
    var total := StarWeight(defs);
    var available := StarAvailable(defs, gridSize);
    if first.IsStar() && second.IsStar() then
      if available < 1.0 then defs
      else
        ShareStarWeight(defs, i, j, StarShare(total, sizes.0, available))
    else
      var newFirst :=
        if first.IsStar()
        then OneSidedStar(first, available + second.actualSize - sizes.1 - sizes.0,
                          total - first.length.value, sizes.0)
        else first.(length := GridLength(sizes.0, Pixel));
      var newSecond :=
        if second.IsStar()
        then OneSidedStar(second, available + first.actualSize - sizes.0 - sizes.1,
                          total - second.length.value, sizes.1)
        else second.(length := GridLength(sizes.1, Pixel));
      defs[i := newFirst][j := newSecond]
  }

  /** The weight a star definition takes when it is resized to `size` out of
      `available` pixels of star space: the same share of the total star
      weight, cut off at zero. */
  function StarShare(totalWeight: real, size: real, available: real): (w: real)
    requires available >= 1.0
    ensures w >= 0.0
    ensures totalWeight * size >= 0.0 ==> w * available == totalWeight * size
    ensures totalWeight * size < 0.0 ==> w == 0.0
  {
    var weight := RealArith.Fraction(totalWeight, size, available);
    RealArith.ScaleKeepsSign(weight, available);
    Max(0.0, weight)
  }

  /** Two star definitions trade weight: the first gets `newFirstWeight`, the
      second gives up what the first gained (or gains what it gave up), cut off
      at zero.  The pair's summed weight is kept exactly when that cut-off
      does not bite, and grows otherwise. */
  function ShareStarWeight(defs: seq<Definition>, i: int, j: int, newFirstWeight: real): (r: seq<Definition>)
    requires 0 <= i < j < |defs|
    requires defs[i].IsStar() && defs[j].IsStar()
    ensures |r| == |defs|
    ensures forall k :: 0 <= k < |defs| && k != i && k != j ==> r[k] == defs[k]
    ensures forall k :: 0 <= k < |defs| ==> r[k].SameLayout(defs[k])
    ensures r[i].length.value == newFirstWeight && r[j].length.value >= 0.0
    ensures defs[j].length.value - newFirstWeight + defs[i].length.value < 0.0 ==> r[j].length.value == 0.0
    ensures r[i].length.value + r[j].length.value >= defs[i].length.value + defs[j].length.value
    ensures r[i].length.value + r[j].length.value == defs[i].length.value + defs[j].length.value
        <==> defs[j].length.value - newFirstWeight + defs[i].length.value >= 0.0
  {
    var first := defs[i];
    var second := defs[j];
    defs[i := first.(length := GridLength(newFirstWeight, Star))]
        [j := second.(length := GridLength(Max(0.0, second.length.value - newFirstWeight + first.length.value), Star))]
  }

  /** Trading weight between two star definitions keeps the grid's total star
      weight whenever the second weight is not cut off at zero. */
  lemma {:induction false} ShareStarWeightKeepsTotal(defs: seq<Definition>, i: int, j: int, newFirstWeight: real)
    requires 0 <= i < j < |defs|
    requires defs[i].IsStar() && defs[j].IsStar()
    requires defs[j].length.value - newFirstWeight + defs[i].length.value >= 0.0
    ensures StarWeight(ShareStarWeight(defs, i, j, newFirstWeight)) == StarWeight(defs)
  {
    var r := ShareStarWeight(defs, i, j, newFirstWeight);
    var mid := defs[i := r[i]];
    StarWeightUpdate(defs, i, r[i]);
    assert r == mid[j := r[j]];
    StarWeightUpdate(mid, j, r[j]);
  }

  /** One resize step exactly as the toolkit performs it, for the splitter in
      row or column `cell` with an already resolved `behavior`.  A pair whose
      second index is past the end leaves everything alone; a pair whose
      first index is -1 (a "Previous" behaviour on cell 0) is read out of
      range, which is the one way the step fails. */
  function ResizeAsWritten(defs: seq<Definition>, behavior: Mode.GridResizeBehavior, cell: nat,
                           gridSize: real, delta: real): (r: Result<seq<Definition>, ResizeError>)
    ensures Mode.IndexPair(behavior, cell).1 >= |defs| ==> r == Ok(defs)
    ensures r.Err? <==>
      && cell == 0
      && (behavior == Mode.PreviousAndCurrent || behavior == Mode.PreviousAndNext)
      && Mode.IndexPair(behavior, cell).1 < |defs|
    ensures r.Err? ==> r.error == IndexOutOfRange(-1)
    ensures r.Ok? ==> |r.value| == |defs|
    ensures var pair := Mode.IndexPair(behavior, cell);
      r.Ok? && 0 <= pair.0 && pair.1 < |defs| ==> PairWritten(defs, pair.0, pair.1, gridSize, delta, r.value)
  {
    var pair := Mode.IndexPair(behavior, cell);
    if pair.1 >= |defs| then Ok(defs)
    else if pair.0 < 0 then Err(IndexOutOfRange(pair.0))
    else Ok(ResizePair(defs, pair.0, pair.1, gridSize, delta))
  }

  /** The failing input: two definitions, the splitter in the first one,
      and a behaviour that reaches back to the definition before it. */
  lemma FirstCellPreviousBehaviorFails(defs: seq<Definition>, gridSize: real, delta: real)
    requires |defs| >= 2
    ensures ResizeAsWritten(defs, Mode.PreviousAndCurrent, 0, gridSize, delta) == Err(IndexOutOfRange(-1))
    ensures ResizeAsWritten(defs, Mode.PreviousAndNext, 0, gridSize, delta) == Err(IndexOutOfRange(-1))
  {
  }

  /** One resize step with both indices guarded: a pair that does not lie
      inside the definitions leaves them unchanged.  Wherever the toolkit's
      step succeeds this is the same step; only definitions of the pair can
      change. */
  function Resize(defs: seq<Definition>, behavior: Mode.GridResizeBehavior, cell: nat,
                  gridSize: real, delta: real): (r: seq<Definition>)
    ensures |r| == |defs|
    ensures var pair := Mode.IndexPair(behavior, cell);
      forall k :: 0 <= k < |defs| && k != pair.0 && k != pair.1 ==> r[k] == defs[k]
    ensures var pair := Mode.IndexPair(behavior, cell);
      pair.0 < 0 || pair.1 >= |defs| ==> r == defs
    ensures forall k :: 0 <= k < |defs| ==> r[k].SameLayout(defs[k])
    ensures var pair := Mode.IndexPair(behavior, cell);
      0 <= pair.0 && pair.1 < |defs| ==> PairWritten(defs, pair.0, pair.1, gridSize, delta, r)
    ensures ResizeAsWritten(defs, behavior, cell, gridSize, delta).Ok? ==>
      r == ResizeAsWritten(defs, behavior, cell, gridSize, delta).value
  {
    var pair := Mode.IndexPair(behavior, cell);
    if pair.1 >= |defs| || pair.0 < 0 then defs
    else ResizePair(defs, pair.0, pair.1, gridSize, delta)
  }

  /** Changing one definition changes the star total by the difference of
      the two weights. */
  lemma {:induction false} StarWeightUpdate(defs: seq<Definition>, k: int, def: Definition)
    requires 0 <= k < |defs|
    ensures StarWeight(defs[k := def]) == StarWeight(defs) - Weight(defs[k]) + Weight(def)
    decreases |defs|
  {
    var n := |defs| - 1;
    var updated := defs[k := def];
    if k == n {
      assert updated[..n] == defs[..n];
    } else {
      assert updated[..n] == defs[..n][k := def];
      StarWeightUpdate(defs[..n], k, def);
    }
  }

  /** Definitions that agree pointwise on their layout leave the same space
      to stars. */
  lemma {:induction false} SameLayoutSameFixedSize(a: seq<Definition>, b: seq<Definition>)
    requires |a| == |b|
    requires forall k :: 0 <= k < |a| ==> a[k].SameLayout(b[k])
    ensures FixedSize(a) == FixedSize(b)
    decreases |a|
  {
    if |a| > 0 {
      var n := |a| - 1;
      SameLayoutSameFixedSize(a[..n], b[..n]);
    }
  }

  /** A resize step never changes the space the grid leaves to stars. */
  lemma ResizeKeepsStarAvailable(defs: seq<Definition>, behavior: Mode.GridResizeBehavior, cell: nat,
                                 gridSize: real, delta: real)
    ensures StarAvailable(Resize(defs, behavior, cell, gridSize, delta), gridSize)
         == StarAvailable(defs, gridSize)
  {
    SameLayoutSameFixedSize(Resize(defs, behavior, cell, gridSize, delta), defs);
  }

  /** Two star definitions resized against each other keep the grid's total
      star weight, unless the second weight had to be cut off at zero. */
  lemma {:induction false} BothStarKeepsTotalWeight(defs: seq<Definition>, i: int, j: int, gridSize: real, delta: real)
    requires 0 <= i < j < |defs|
    requires defs[i].IsStar() && defs[j].IsStar()
    requires var r := ResizePair(defs, i, j, gridSize, delta);
      defs[j].length.value - r[i].length.value + defs[i].length.value >= 0.0
    ensures StarWeight(ResizePair(defs, i, j, gridSize, delta)) == StarWeight(defs)
  {
    if StarAvailable(defs, gridSize) >= 1.0 {
      var r := ResizePair(defs, i, j, gridSize, delta);
      ShareStarWeightKeepsTotal(defs, i, j, r[i].length.value);
    }
  }
}

=== FILE: grid_resize_mode.dfy ===
/** How a CustomGridSplitter decides WHAT it resizes: the effective direction
    (rows or columns), the effective behaviour (which neighbours share the
    space) and the pair of definition indices the behaviour selects. */
module GridResizeMode {

  /** Which rows or columns are resized relative to the splitter's own cell. */
  datatype GridResizeBehavior = BasedOnAlignment | CurrentAndNext | PreviousAndCurrent | PreviousAndNext

  /** Whether space is redistributed between columns or between rows. */
  datatype GridResizeDirection = Auto | Columns | Rows

  datatype HorizontalAlignment = Left | Center | Right | Stretch

  datatype VerticalAlignment = Top | Center | Bottom | Stretch

  /** The direction a splitter actually resizes in.  An explicit direction
      wins; for `Auto` a splitter that is not horizontally stretched resizes
      columns, a horizontally stretched one that is not vertically stretched
      resizes rows, and a splitter stretched both ways resizes columns exactly
      when it is no wider than it is tall. */
  function EffectiveDirection(
    direction: GridResizeDirection,
    horizontal: HorizontalAlignment,
    vertical: VerticalAlignment,
    actualWidth: real,
    actualHeight: real): (r: GridResizeDirection)
    ensures r != Auto
    ensures direction != Auto ==> r == direction
    ensures direction == Auto ==>
      (r == Columns <==>
         horizontal != HorizontalAlignment.Stretch
         || (vertical == VerticalAlignment.Stretch && actualWidth <= actualHeight))
  {
    match direction
    case Columns => Columns
    case Rows => Rows
    case Auto =>
      if horizontal != HorizontalAlignment.Stretch then Columns
      else if horizontal == HorizontalAlignment.Stretch && vertical != VerticalAlignment.Stretch then Rows
      else if horizontal == HorizontalAlignment.Stretch && vertical == VerticalAlignment.Stretch
              && actualWidth <= actualHeight then Columns
      else Rows
  }

  /** The behaviour a splitter actually uses.  An explicit behaviour wins;
      `BasedOnAlignment` looks at the alignment across the resize direction:
      a splitter at the near edge of its cell (Top, Left) resizes the previous
      and the current definition, one at the far edge (Bottom, Right) the
      current and the next, and any other one the two around its cell. */
  function EffectiveBehavior(
    behavior: GridResizeBehavior,
    direction: GridResizeDirection,
    horizontal: HorizontalAlignment,
    vertical: VerticalAlignment,
    actualWidth: real,
    actualHeight: real): (r: GridResizeBehavior)
    ensures r != BasedOnAlignment
    ensures behavior != BasedOnAlignment ==> r == behavior
    ensures behavior == BasedOnAlignment
              && EffectiveDirection(direction, horizontal, vertical, actualWidth, actualHeight) == Rows ==>
      && (r == PreviousAndCurrent <==> vertical == VerticalAlignment.Top)
      && (r == CurrentAndNext <==> vertical == VerticalAlignment.Bottom)
    ensures behavior == BasedOnAlignment
              && EffectiveDirection(direction, horizontal, vertical, actualWidth, actualHeight) == Columns ==>
      && (r == PreviousAndCurrent <==> horizontal == HorizontalAlignment.Left)
      && (r == CurrentAndNext <==> horizontal == HorizontalAlignment.Right)
  {
    match behavior
    case CurrentAndNext => CurrentAndNext
    case PreviousAndCurrent => PreviousAndCurrent
    case PreviousAndNext => PreviousAndNext
    case BasedOnAlignment =>
      var effective := EffectiveDirection(direction, horizontal, vertical, actualWidth, actualHeight);
      if effective == Rows then
        if vertical == VerticalAlignment.Top then PreviousAndCurrent
        else if vertical == VerticalAlignment.Bottom then CurrentAndNext
        else PreviousAndNext
      else if horizontal == HorizontalAlignment.Left then PreviousAndCurrent
      else if horizontal == HorizontalAlignment.Right then CurrentAndNext
      else PreviousAndNext
  }

  /** The indices (first, second) of the two definitions that share the space,
      given the splitter's own row or column `cell`.  The pair always encloses
      the splitter's cell; it skips over it only for `PreviousAndNext`, and
      every behaviour other than the two "Previous" ones (including an
      unresolved `BasedOnAlignment`) starts at the splitter's cell. */
  function IndexPair(behavior: GridResizeBehavior, cell: int): (r: (int, int))
    ensures r.1 - r.0 == 1 || r.1 - r.0 == 2
    ensures r.0 <= cell <= r.1
    ensures r.1 - r.0 == 2 <==> behavior == PreviousAndNext
    ensures r.0 == cell <==> behavior != PreviousAndCurrent && behavior != PreviousAndNext
    ensures r.1 == cell <==> behavior == PreviousAndCurrent
  {
    match behavior
    case PreviousAndCurrent => (cell - 1, cell)
    case PreviousAndNext => (cell - 1, cell + 1)
    case _ => (cell, cell + 1)
  }

  /** A splitter whose behaviour reaches back to the previous definition
      starts its pair one below its own cell; for cell 0 that index is -1. */
  lemma PreviousBehaviorsReachBack(behavior: GridResizeBehavior, cell: int)
    ensures IndexPair(behavior, cell).0 < cell
        <==> behavior == PreviousAndCurrent || behavior == PreviousAndNext
    ensures IndexPair(behavior, cell).0 < cell ==> IndexPair(behavior, cell).0 == cell - 1
  {
  }

  /** Both alignments stretched and an `Auto` direction: the behaviour that
      alignment selects is always the one that straddles the splitter. */
  lemma StretchedSplitterStraddles(
    direction: GridResizeDirection, actualWidth: real, actualHeight: real)
    ensures EffectiveBehavior(BasedOnAlignment, direction,
                              HorizontalAlignment.Stretch, VerticalAlignment.Stretch,
                              actualWidth, actualHeight) == PreviousAndNext
  {
  }
}

=== FILE: grid_splitter.dfy ===
/** The CustomGridSplitter control as plain values: the splitter's own
    settings and placement, the grid it sits in, and the three ways a step
    reaches the grid: a column resize, a row resize (the same arithmetic
    over the row definitions, with heights for widths), an arrow key, and a
    pointer move during a direct drag. */
module GridSplitter {
  import opened Wrappers
  import opened Geometry
  import Mode = GridResizeMode
  import Defs = GridDefinitions

  /** The keys the splitter reacts to; every other key is `OtherKey`. */
  datatype VirtualKey = LeftKey | UpKey | RightKey | DownKey | OtherKey

  /** The splitter's properties and its attached Grid.Column / Grid.Row. */
  datatype Splitter = Splitter(
    resizeDirection: Mode.GridResizeDirection,
    resizeBehavior: Mode.GridResizeBehavior,
    horizontalAlignment: Mode.HorizontalAlignment,
    verticalAlignment: Mode.VerticalAlignment,
    actualWidth: real,
    actualHeight: real,
    keyboardIncrement: real,
    column: nat,
    row: nat)

  /** The parent grid: its column and row definitions and its actual size. */
  datatype Grid = Grid(
    columnDefinitions: seq<Defs.Definition>,
    rowDefinitions: seq<Defs.Definition>,
    actualWidth: real,
    actualHeight: real)

  /** The outcome of a key press: the grid afterwards, and whether the key
      was marked handled. */
  datatype KeyOutcome = KeyOutcome(grid: Grid, handled: bool)

  /** The direction the splitter resizes in, resolved from its own
      ResizeDirection, alignments and size. */
  function EffectiveDirection(splitter: Splitter): (r: Mode.GridResizeDirection)
    ensures r != Mode.Auto
    ensures splitter.resizeDirection != Mode.Auto ==> r == splitter.resizeDirection
    ensures splitter.resizeDirection == Mode.Auto ==>
      (r == Mode.Columns <==>
         splitter.horizontalAlignment != Mode.HorizontalAlignment.Stretch
         || (splitter.verticalAlignment == Mode.VerticalAlignment.Stretch
             && splitter.actualWidth <= splitter.actualHeight))
  {
    Mode.EffectiveDirection(splitter.resizeDirection, splitter.horizontalAlignment,
                            splitter.verticalAlignment, splitter.actualWidth, splitter.actualHeight)
  }

  /** The behaviour the splitter uses, resolved from its own ResizeBehavior
      and the alignment across its effective direction. */
  function EffectiveBehavior(splitter: Splitter): (r: Mode.GridResizeBehavior)
    ensures r != Mode.BasedOnAlignment
    ensures splitter.resizeBehavior != Mode.BasedOnAlignment ==> r == splitter.resizeBehavior
    ensures splitter.resizeBehavior == Mode.BasedOnAlignment && EffectiveDirection(splitter) == Mode.Rows ==>
      && (r == Mode.PreviousAndCurrent <==> splitter.verticalAlignment == Mode.VerticalAlignment.Top)
      && (r == Mode.CurrentAndNext <==> splitter.verticalAlignment == Mode.VerticalAlignment.Bottom)
    ensures splitter.resizeBehavior == Mode.BasedOnAlignment && EffectiveDirection(splitter) == Mode.Columns ==>
      && (r == Mode.PreviousAndCurrent <==> splitter.horizontalAlignment == Mode.HorizontalAlignment.Left)
      && (r == Mode.CurrentAndNext <==> splitter.horizontalAlignment == Mode.HorizontalAlignment.Right)
  {
    Mode.EffectiveBehavior(splitter.resizeBehavior, splitter.resizeDirection,
                           splitter.horizontalAlignment, splitter.verticalAlignment,
                           splitter.actualWidth, splitter.actualHeight)
  }

  /** Resizes the columns around the splitter by `deltaX`.  Rows and the
      grid's size are untouched, and only the two columns of the effective
      pair can change: a pair inside the grid is resized as one step with the
      grid's width as the space, and any other pair leaves the grid alone. */
  function ResizeColumns(splitter: Splitter, grid: Grid, deltaX: real): (r: Grid)
    ensures r.rowDefinitions == grid.rowDefinitions
    ensures r.actualWidth == grid.actualWidth && r.actualHeight == grid.actualHeight
    ensures |r.columnDefinitions| == |grid.columnDefinitions|
    ensures var pair := Mode.IndexPair(EffectiveBehavior(splitter), splitter.column);
      forall k :: 0 <= k < |grid.columnDefinitions| && r.columnDefinitions[k] != grid.columnDefinitions[k] ==>
        k == pair.0 || k == pair.1
    ensures var pair := Mode.IndexPair(EffectiveBehavior(splitter), splitter.column);
      0 <= pair.0 && pair.1 < |grid.columnDefinitions| ==>
        Defs.PairWritten(grid.columnDefinitions, pair.0, pair.1, grid.actualWidth, deltaX, r.columnDefinitions)
    ensures var pair := Mode.IndexPair(EffectiveBehavior(splitter), splitter.column);
      pair.0 < 0 || pair.1 >= |grid.columnDefinitions| ==> r == grid
  {
    grid.(columnDefinitions :=
      Defs.Resize(grid.columnDefinitions, EffectiveBehavior(splitter), splitter.column,
                  grid.actualWidth, deltaX))
  }

  /** Resizes the rows around the splitter by `deltaY`: the mirror image of
      `ResizeColumns`, with the grid's height as the space. */
  function ResizeRows(splitter: Splitter, grid: Grid, deltaY: real): (r: Grid)
    ensures r.columnDefinitions == grid.columnDefinitions
    ensures r.actualWidth == grid.actualWidth && r.actualHeight == grid.actualHeight
    ensures |r.rowDefinitions| == |grid.rowDefinitions|
    ensures var pair := Mode.IndexPair(EffectiveBehavior(splitter), splitter.row);
      forall k :: 0 <= k < |grid.rowDefinitions| && r.rowDefinitions[k] != grid.rowDefinitions[k] ==>
        k == pair.0 || k == pair.1
    ensures var pair := Mode.IndexPair(EffectiveBehavior(splitter), splitter.row);
      0 <= pair.0 && pair.1 < |grid.rowDefinitions| ==>
        Defs.PairWritten(grid.rowDefinitions, pair.0, pair.1, grid.actualHeight, deltaY, r.rowDefinitions)
    ensures var pair := Mode.IndexPair(EffectiveBehavior(splitter), splitter.row);
      pair.0 < 0 || pair.1 >= |grid.rowDefinitions| ==> r == grid
  {
    grid.(rowDefinitions :=
      Defs.Resize(grid.rowDefinitions, EffectiveBehavior(splitter), splitter.row,
                  grid.actualHeight, deltaY))
  }

  /** The delta an arrow key asks for: Left and Up move back by the
      increment, Right and Down forward, each only along the resize
      direction; any other key asks for nothing. */
  function KeyboardDelta(direction: Mode.GridResizeDirection, key: VirtualKey, increment: real): (r: Option<real>)
    ensures r.Some? <==>
      (direction == Mode.Columns && (key == LeftKey || key == RightKey))
      || (direction != Mode.Columns && (key == UpKey || key == DownKey))
    ensures r.Some? && (key == LeftKey || key == UpKey) ==> r.value == -increment
    ensures r.Some? && (key == RightKey || key == DownKey) ==> r.value == increment
  {
    if direction == Mode.Columns then
      if key == LeftKey then Some(-increment)
      else if key == RightKey then Some(increment)
      else None
    else
      if key == UpKey then Some(-increment)
      else if key == DownKey then Some(increment)
      else None
  }

  /** A key press: an arrow key along the effective direction resizes by the
      keyboard increment and is marked handled; any other key leaves the grid
      alone and is not handled. */
  function OnKeyDown(splitter: Splitter, grid: Grid, key: VirtualKey): (r: KeyOutcome)
    ensures r.handled <==>
      (EffectiveDirection(splitter) == Mode.Columns && (key == LeftKey || key == RightKey))
      || (EffectiveDirection(splitter) == Mode.Rows && (key == UpKey || key == DownKey))
    ensures !r.handled ==> r.grid == grid
    ensures r.handled && EffectiveDirection(splitter) == Mode.Columns ==>
      r.grid == ResizeColumns(splitter, grid,
                              if key == LeftKey then -splitter.keyboardIncrement else splitter.keyboardIncrement)
    ensures r.handled && EffectiveDirection(splitter) == Mode.Rows ==>
      r.grid == ResizeRows(splitter, grid,
                           if key == UpKey then -splitter.keyboardIncrement else splitter.keyboardIncrement)
  {
    var direction := EffectiveDirection(splitter);
    match KeyboardDelta(direction, key, splitter.keyboardIncrement)
    case None => KeyOutcome(grid, false)
    case Some(delta) =>
      if direction == Mode.Columns then KeyOutcome(ResizeColumns(splitter, grid, delta), true)
      else KeyOutcome(ResizeRows(splitter, grid, delta), true)
  }

  /** End to end: Left on a column splitter whose pair lies within the grid,
      between two non-star columns within their limits that can give and take
      one increment, moves the boundary by exactly one increment and writes
      both columns as pixel lengths. */
  lemma LeftKeyMovesBoundaryByIncrement(splitter: Splitter, grid: Grid)
    requires EffectiveDirection(splitter) == Mode.Columns
    requires var pair := Mode.IndexPair(EffectiveBehavior(splitter), splitter.column);
      0 <= pair.0 && pair.1 < |grid.columnDefinitions|
    requires var pair := Mode.IndexPair(EffectiveBehavior(splitter), splitter.column);
      var a := grid.columnDefinitions[pair.0];
      var b := grid.columnDefinitions[pair.1];
      && !a.IsStar() && !b.IsStar()
      && a.WithinLimits() && b.WithinLimits()
      && a.Admits(a.actualSize - splitter.keyboardIncrement)
      && b.Admits(b.actualSize + splitter.keyboardIncrement)
    ensures var pair := Mode.IndexPair(EffectiveBehavior(splitter), splitter.column);
      var after := OnKeyDown(splitter, grid, LeftKey).grid.columnDefinitions;
      && after[pair.0].length
         == Defs.GridLength(grid.columnDefinitions[pair.0].actualSize - splitter.keyboardIncrement, Defs.Pixel)
      && after[pair.1].length
         == Defs.GridLength(grid.columnDefinitions[pair.1].actualSize + splitter.keyboardIncrement, Defs.Pixel)
  {
  }

  /** End to end, the mirror for rows: Up on a row splitter whose pair lies
      within the grid, between two non-star rows within their limits that can
      give and take one increment, moves the boundary up by exactly one
      increment and writes both rows as pixel lengths. */
  lemma UpKeyMovesBoundaryByIncrement(splitter: Splitter, grid: Grid)
    requires EffectiveDirection(splitter) == Mode.Rows
    requires var pair := Mode.IndexPair(EffectiveBehavior(splitter), splitter.row);
      0 <= pair.0 && pair.1 < |grid.rowDefinitions|
    requires var pair := Mode.IndexPair(EffectiveBehavior(splitter), splitter.row);
      var a := grid.rowDefinitions[pair.0];
      var b := grid.rowDefinitions[pair.1];
      && !a.IsStar() && !b.IsStar()
      && a.WithinLimits() && b.WithinLimits()
      && a.Admits(a.actualSize - splitter.keyboardIncrement)
      && b.Admits(b.actualSize + splitter.keyboardIncrement)
    ensures var pair := Mode.IndexPair(EffectiveBehavior(splitter), splitter.row);
      var after := OnKeyDown(splitter, grid, UpKey).grid.rowDefinitions;
      && after[pair.0].length
         == Defs.GridLength(grid.rowDefinitions[pair.0].actualSize - splitter.keyboardIncrement, Defs.Pixel)
      && after[pair.1].length
         == Defs.GridLength(grid.rowDefinitions[pair.1].actualSize + splitter.keyboardIncrement, Defs.Pixel)
  {
  }

  /** A pointer move during a direct drag: the change in x resizes columns
      when the direction captured at pointer press is Columns, otherwise the
      change in y resizes rows. */
  function ContinueDirectDragging(splitter: Splitter, grid: Grid, capturedDirection: Mode.GridResizeDirection,
                                  position: Point, lastPosition: Point): (r: Grid)
    ensures capturedDirection == Mode.Columns ==> r.rowDefinitions == grid.rowDefinitions
    ensures capturedDirection != Mode.Columns ==> r.columnDefinitions == grid.columnDefinitions
    ensures position == lastPosition ==>
      r == ResizeColumns(splitter, grid, 0.0) || r == ResizeRows(splitter, grid, 0.0)
  {
    if capturedDirection == Mode.Columns
    then ResizeColumns(splitter, grid, position.x - lastPosition.x)
    else ResizeRows(splitter, grid, position.y - lastPosition.y)
  }

  /** A drag step depends on the pointer only through its displacement along
      the captured axis: two moves with the same displacement on that axis
      give the same grid, wherever they start and however far they stray
      across it. */
  lemma DragFollowsDisplacement(splitter: Splitter, grid: Grid, capturedDirection: Mode.GridResizeDirection,
                                position1: Point, lastPosition1: Point, position2: Point, lastPosition2: Point)
    ensures capturedDirection == Mode.Columns && position1.x - lastPosition1.x == position2.x - lastPosition2.x ==>
      ContinueDirectDragging(splitter, grid, capturedDirection, position1, lastPosition1)
        == ContinueDirectDragging(splitter, grid, capturedDirection, position2, lastPosition2)
    ensures capturedDirection != Mode.Columns && position1.y - lastPosition1.y == position2.y - lastPosition2.y ==>
      ContinueDirectDragging(splitter, grid, capturedDirection, position1, lastPosition1)
        == ContinueDirectDragging(splitter, grid, capturedDirection, position2, lastPosition2)
  {
  }

  /** With Columns captured at pointer press, dragging the pointer one
      keyboard increment to the left is the Left arrow key, and one increment
      to the right is the Right arrow key. */
  lemma DragByIncrementIsColumnKey(splitter: Splitter, grid: Grid, position: Point, lastPosition: Point)
    requires EffectiveDirection(splitter) == Mode.Columns
    ensures position.x - lastPosition.x == -splitter.keyboardIncrement ==>
      ContinueDirectDragging(splitter, grid, Mode.Columns, position, lastPosition)
        == OnKeyDown(splitter, grid, LeftKey).grid
    ensures position.x - lastPosition.x == splitter.keyboardIncrement ==>
      ContinueDirectDragging(splitter, grid, Mode.Columns, position, lastPosition)
        == OnKeyDown(splitter, grid, RightKey).grid
  {
  }

  /** With Rows captured at pointer press, dragging the pointer one keyboard
      increment up is the Up arrow key, and one increment down is the Down
      arrow key. */
  lemma DragByIncrementIsRowKey(splitter: Splitter, grid: Grid, position: Point, lastPosition: Point)
    requires EffectiveDirection(splitter) == Mode.Rows
    ensures position.y - lastPosition.y == -splitter.keyboardIncrement ==>
      ContinueDirectDragging(splitter, grid, Mode.Rows, position, lastPosition)
        == OnKeyDown(splitter, grid, UpKey).grid
    ensures position.y - lastPosition.y == splitter.keyboardIncrement ==>
      ContinueDirectDragging(splitter, grid, Mode.Rows, position, lastPosition)
        == OnKeyDown(splitter, grid, DownKey).grid
  {
  }
}

=== FILE: numeric_up_down.dfy ===
/** The value logic of the NumericUpDown control: the increment and
    decrement buttons, dragging over the control to change the value, the
    value bar that fills in proportion to the value, and the read-only rule
    for the buttons.  The range fields are the control's RangeBase
    properties; the value is kept exactly as the handlers assign it. */
module NumericUpDown {
  import opened Wrappers
  import opened Geometry
  import RealArith

  /** How the value bar is shown; `Auto` behaves as `Visible`. */
  datatype ValueBarVisibility = Visible | Collapsed | Auto

  /** A UI element's visibility. */
  datatype Visibility = Visible | Collapsed

  /** The control's range state and its drag accumulator. */
  datatype UpDown = UpDown(
    value: real,
    minimum: real,
    maximum: real,
    smallChange: real,
    isEnabled: bool,
    unusedManipulationDelta: real)

  /** The bounds of the current window. */
  datatype Window = Window(width: real, height: real)

  /** The screen dimension assumed when there is no current window. */
  const FallbackScreenDimension: real := 768.0

  /** A live window has positive width and height. */
  predicate ValidWindow(window: Option<Window>) {
    window.None? || (window.value.width > 0.0 && window.value.height > 0.0)
  }

  function Abs(x: real): real {
    if x < 0.0 then -x else x
  }

  /** The increment button adds one small change to the value and touches
      nothing else. */
  function IncrementClick(s: UpDown): (r: UpDown)
    ensures r.value - s.value == s.smallChange
    ensures r.(value := s.value) == s
  {
    s.(value := s.value + s.smallChange)
  }

  /** The decrement button takes one small change off the value and touches
      nothing else. */
  function DecrementClick(s: UpDown): (r: UpDown)
    ensures s.value - r.value == s.smallChange
    ensures r.(value := s.value) == s
  {
    s.(value := s.value - s.smallChange)
  }

  /** One click of each button, in either order, leaves the control as it
      was, as the handlers assign the value, before RangeBase coerces it. */
  lemma ClicksCancel(s: UpDown)
    ensures DecrementClick(IncrementClick(s)) == s
    ensures IncrementClick(DecrementClick(s)) == s
  {
  }

  /** The drag delta is the translation along the dominant axis: rightwards
      when the horizontal movement is strictly larger, otherwise upwards (the
      vertical translation negated, since screen y grows downwards); a tie
      goes to the vertical axis. */
  function DragDelta(translation: Point): (d: real)
    ensures d == translation.x || d == -translation.y
    ensures Abs(d) >= Abs(translation.x) && Abs(d) >= Abs(translation.y)
    ensures Abs(translation.x) == Abs(translation.y) ==> d == -translation.y
  {
    if Abs(translation.x) > Abs(translation.y) then translation.x else -translation.y
  }

  /** The sign of a number, as -1, 0 or 1. */
  function Sign(x: real): int {
    if x > 0.0 then 1 else if x < 0.0 then -1 else 0
  }

  /** The accumulated drag: a delta in the same direction as the unused one
      adds to it, any other delta replaces it.  The result always points the
      way the new delta does, and with nothing unused it is the new delta. */
  function Accumulate(unused: real, delta: real): (acc: real)
    ensures Sign(delta) == Sign(unused) ==> acc == unused + delta
    ensures Sign(delta) != Sign(unused) ==> acc == delta
    ensures Sign(acc) == Sign(delta)
    ensures unused == 0.0 ==> acc == delta
  {
    if Sign(delta) == Sign(unused) then unused + delta else delta
  }

  /** The smaller side of the window, or the fallback without a window. */
  function ScreenDimension(window: Option<Window>): (d: real)
    requires ValidWindow(window)
    ensures d > 0.0
    ensures window.None? ==> d == FallbackScreenDimension
    ensures window.Some? ==>
      d <= window.value.width && d <= window.value.height
      && (d == window.value.width || d == window.value.height)
  {
    match window
    case None => FallbackScreenDimension
    case Some(w) => if w.width <= w.height then w.width else w.height
  }

  /** A value at the maximum cannot be dragged further up or held there, and
      a value at the minimum cannot be dragged further down or held there. */
  predicate Pinned(s: UpDown, acc: real) {
    (s.value == s.maximum && acc >= 0.0) || (s.value == s.minimum && acc <= 0.0)
  }

  /** Applies one drag delta.  Every path resets the accumulator.  A pinned
      value stays put; otherwise the value moves by the accumulated drag
      scaled so that dragging across the smaller window side sweeps the whole
      range.  Nothing but the value and the accumulator changes. */
  function ApplyManipulationDelta(s: UpDown, delta: real, window: Option<Window>): (r: UpDown)
    requires ValidWindow(window)
    ensures r.unusedManipulationDelta == 0.0
    ensures r.(value := s.value, unusedManipulationDelta := s.unusedManipulationDelta) == s
    ensures Pinned(s, Accumulate(s.unusedManipulationDelta, delta)) ==> r.value == s.value
    ensures !Pinned(s, Accumulate(s.unusedManipulationDelta, delta)) ==>
      (r.value - s.value) * ScreenDimension(window)
        == (s.maximum - s.minimum) * Accumulate(s.unusedManipulationDelta, delta)
  {
    var acc := Accumulate(s.unusedManipulationDelta, delta);
    var reset := s.(unusedManipulationDelta := 0.0);
    if s.value == s.maximum && acc > 0.0 then reset
    else if s.value == s.minimum && acc < 0.0 then reset
    else
      var smallerScreenDimension := ScreenDimension(window);
      if acc <= 0.0 && s.value == s.minimum then reset
      else if acc >= 0.0 && s.value == s.maximum then reset
      else
        var speed := s.maximum - s.minimum;
        var screenAdjustedDelta := speed * acc / smallerScreenDimension;
        RealArith.DivMulCancel(speed * acc, smallerScreenDimension);
        reset.(value := s.value + screenAdjustedDelta)
  }

  /** The drag-overlay handler: a disabled control ignores the manipulation;
      an enabled one applies the delta of the dominant axis. */
  function OnDragOverlayManipulationDelta(s: UpDown, translation: Point, window: Option<Window>): (r: UpDown)
    requires ValidWindow(window)
    ensures !s.isEnabled ==> r == s
    ensures s.isEnabled ==> r == ApplyManipulationDelta(s, DragDelta(translation), window)
  {
    if !s.isEnabled then s else ApplyManipulationDelta(s, DragDelta(translation), window)
  }

  /** For an ordered range, a drag never moves the value against the
      pointer: a positive delta never lowers it, a negative one never raises
      it, and a zero delta leaves it alone. */
  lemma DragFollowsPointer(s: UpDown, delta: real, window: Option<Window>)
    requires ValidWindow(window)
    requires s.minimum <= s.maximum
    ensures delta >= 0.0 ==> ApplyManipulationDelta(s, delta, window).value >= s.value
    ensures delta <= 0.0 ==> ApplyManipulationDelta(s, delta, window).value <= s.value
  {
    var r := ApplyManipulationDelta(s, delta, window);
    var acc := Accumulate(s.unusedManipulationDelta, delta);
    var d := ScreenDimension(window);
    var speed := s.maximum - s.minimum;
    if !Pinned(s, acc) {
      RealArith.ProductSign(speed, acc);
      RealArith.ScaleKeepsSign(r.value - s.value, d);
      RealArith.ScaleKeepsSign(s.value - r.value, d);
    }
  }

  /** Starting from a reset accumulator with the value below its maximum,
      dragging across the full smaller window side sweeps the whole range. */
  lemma FullDragSweepsRange(s: UpDown, window: Option<Window>)
    requires ValidWindow(window)
    requires s.unusedManipulationDelta == 0.0
    requires s.value != s.maximum
    ensures ApplyManipulationDelta(s, ScreenDimension(window), window).value
         == s.value + (s.maximum - s.minimum)
  {
  }

  /** A drag session: one manipulation event per delta, in order. */
  function ApplyManipulationDeltas(s: UpDown, deltas: seq<real>, window: Option<Window>): (r: UpDown)
    requires ValidWindow(window)
    ensures |deltas| > 0 ==> r.unusedManipulationDelta == 0.0
    ensures r.(value := s.value, unusedManipulationDelta := s.unusedManipulationDelta) == s
    decreases |deltas|
  {
    if |deltas| == 0 then s
    else ApplyManipulationDeltas(ApplyManipulationDelta(s, deltas[0], window), deltas[1..], window)
  }

  /** A session is its events applied in order: running two sessions one
      after the other is the same as running their events as one session. */
  lemma {:induction false} SessionsCompose(s: UpDown, a: seq<real>, b: seq<real>, window: Option<Window>)
    requires ValidWindow(window)
    ensures ApplyManipulationDeltas(s, a + b, window)
         == ApplyManipulationDeltas(ApplyManipulationDeltas(s, a, window), b, window)
    decreases |a|
  {
    if |a| == 0 {
      assert a + b == b;
    } else {
      assert (a + b)[0] == a[0];
      assert (a + b)[1..] == a[1..] + b;
      SessionsCompose(ApplyManipulationDelta(s, a[0], window), a[1..], b, window);
    }
  }

  /** A session of one event is that event's step. */
  lemma SingleEventSession(s: UpDown, delta: real, window: Option<Window>)
    requires ValidWindow(window)
    ensures ApplyManipulationDeltas(s, [delta], window) == ApplyManipulationDelta(s, delta, window)
  {
  }

  /** For an ordered range, a drag session whose deltas all point upwards
      never lowers the value. */
  lemma {:induction false} UpwardSessionNeverLowers(s: UpDown, deltas: seq<real>, window: Option<Window>)
    requires ValidWindow(window)
    requires s.minimum <= s.maximum
    requires forall k :: 0 <= k < |deltas| ==> deltas[k] >= 0.0
    ensures ApplyManipulationDeltas(s, deltas, window).value >= s.value
    decreases |deltas|
  {
    if |deltas| > 0 {
      var next := ApplyManipulationDelta(s, deltas[0], window);
      DragFollowsPointer(s, deltas[0], window);
      UpwardSessionNeverLowers(next, deltas[1..], window);
    }
  }

  /** A rectangle's width as the framework receives it: a finite number, or
      the non-finite result of dividing by an empty range. */
  datatype Extent = Finite(size: real) | NotFinite

  /** A clip rectangle at the origin. */
  datatype Rect = Rect(width: Extent, height: real)

  /** The value bar element: its visibility, its laid-out size and its clip. */
  datatype ValueBar = ValueBar(visibility: Visibility, actualWidth: real, actualHeight: real, clip: Option<Rect>)

  /** The filled width of the value bar: the part of its width that the
      value's position in the range covers, empty at the minimum and full at
      the maximum; an empty range has no finite width. */
  function ClipWidth(actualWidth: real, value: real, minimum: real, maximum: real): (w: Extent)
    ensures w.Finite? <==> minimum != maximum
    ensures w.Finite? && value == minimum ==> w.size == 0.0
    ensures w.Finite? && value == maximum ==> w.size == actualWidth
    ensures w.Finite? ==> w.size * (maximum - minimum) == actualWidth * (value - minimum)
    ensures minimum < maximum && minimum <= value <= maximum && actualWidth >= 0.0 ==>
      0.0 <= w.size <= actualWidth
  {
    if minimum == maximum then NotFinite
    else
      Finite(RealArith.Fraction(actualWidth, value - minimum, maximum - minimum))
  }

  /** A larger value never fills less of the bar. */
  lemma ClipWidthMonotone(actualWidth: real, v1: real, v2: real, minimum: real, maximum: real)
    requires actualWidth >= 0.0 && minimum < maximum && v1 <= v2
    ensures ClipWidth(actualWidth, v1, minimum, maximum).size <= ClipWidth(actualWidth, v2, minimum, maximum).size
  {
    var w1 := ClipWidth(actualWidth, v1, minimum, maximum).size;
    var w2 := ClipWidth(actualWidth, v2, minimum, maximum).size;
    assert w1 * (maximum - minimum) == actualWidth * (v1 - minimum);
    assert w2 * (maximum - minimum) == actualWidth * (v2 - minimum);
    assert (w2 - w1) * (maximum - minimum) == actualWidth * (v2 - v1);
    RealArith.ProductSign(actualWidth, v2 - v1);
    RealArith.ScaleKeepsSign(w2 - w1, maximum - minimum);
  }

  /** The value bar update as the control performs it: a missing bar is left
      alone, `Collapsed` hides the bar without touching its clip, and any
      other setting clips the bar to the filled width but leaves its
      visibility as it was. */
  function UpdateValueBarAsWritten(bar: Option<ValueBar>, visibility: ValueBarVisibility,
                                   value: real, minimum: real, maximum: real): (r: Option<ValueBar>)
    ensures r.None? <==> bar.None?
    ensures bar.Some? && visibility == ValueBarVisibility.Collapsed ==>
      r == Some(bar.value.(visibility := Visibility.Collapsed))
    ensures bar.Some? && visibility != ValueBarVisibility.Collapsed ==>
      r == Some(bar.value.(clip := Some(Rect(ClipWidth(bar.value.actualWidth, value, minimum, maximum),
                                             bar.value.actualHeight))))
  {
    match bar
    case None => None
    case Some(b) =>
      var effective := if visibility == ValueBarVisibility.Auto then ValueBarVisibility.Visible else visibility;
      if effective == ValueBarVisibility.Collapsed then Some(b.(visibility := Visibility.Collapsed))
      else Some(b.(clip := Some(Rect(ClipWidth(b.actualWidth, value, minimum, maximum), b.actualHeight))))
  }

  /** Once collapsed, the bar as written stays hidden whatever the setting
      is changed to afterwards. */
  lemma CollapsedValueBarStaysHidden(bar: ValueBar, later: ValueBarVisibility,
                                     value: real, minimum: real, maximum: real)
    ensures var hidden := UpdateValueBarAsWritten(Some(bar), ValueBarVisibility.Collapsed, value, minimum, maximum);
      UpdateValueBarAsWritten(hidden, later, value, minimum, maximum).value.visibility == Visibility.Collapsed
  {
  }

  /** The value bar update with the visibility restored: the bar is hidden
      exactly when the setting is `Collapsed` (`Auto` shows it), a shown bar
      is clipped to the filled width, and a hidden one keeps its clip. */
  function UpdateValueBar(bar: Option<ValueBar>, visibility: ValueBarVisibility,
                          value: real, minimum: real, maximum: real): (r: Option<ValueBar>)
    ensures r.None? <==> bar.None?
    ensures r.Some? ==> (r.value.visibility == Visibility.Collapsed <==> visibility == ValueBarVisibility.Collapsed)
    ensures r.Some? ==> r.value.actualWidth == bar.value.actualWidth && r.value.actualHeight == bar.value.actualHeight
    ensures r.Some? && visibility == ValueBarVisibility.Collapsed ==> r.value.clip == bar.value.clip
    ensures r.Some? && visibility != ValueBarVisibility.Collapsed ==>
      r.value.clip == Some(Rect(ClipWidth(bar.value.actualWidth, value, minimum, maximum), bar.value.actualHeight))
  {
    match bar
    case None => None
    case Some(b) =>
      var effective := if visibility == ValueBarVisibility.Auto then ValueBarVisibility.Visible else visibility;
      if effective == ValueBarVisibility.Collapsed then Some(b.(visibility := Visibility.Collapsed))
      else Some(b.(visibility := Visibility.Visible,
                   clip := Some(Rect(ClipWidth(b.actualWidth, value, minimum, maximum), b.actualHeight))))
  }

  /** The corrected update differs from the written one only in restoring the
      bar's visibility, and it settles: a second update with the same inputs
      changes nothing. */
  lemma UpdateValueBarRestoresOnlyVisibility(bar: Option<ValueBar>, visibility: ValueBarVisibility,
                                             value: real, minimum: real, maximum: real)
    ensures var fixed := UpdateValueBar(bar, visibility, value, minimum, maximum);
      var written := UpdateValueBarAsWritten(bar, visibility, value, minimum, maximum);
      fixed.Some? ==> fixed.value.(visibility := written.value.visibility) == written.value
    ensures var once := UpdateValueBar(bar, visibility, value, minimum, maximum);
      UpdateValueBar(once, visibility, value, minimum, maximum) == once
  {
  }

  /** The read-only rule: each button that is present is collapsed exactly
      when the control is read-only, and shown otherwise. */
  function UpdateIsReadOnlyDependants(isReadOnly: bool, decrementButton: Option<Visibility>,
                                      incrementButton: Option<Visibility>): (r: (Option<Visibility>, Option<Visibility>))
    ensures r.0.Some? <==> decrementButton.Some?
    ensures r.1.Some? <==> incrementButton.Some?
    ensures r.0.Some? ==> (r.0.value == Visibility.Collapsed <==> isReadOnly)
    ensures r.1.Some? ==> (r.1.value == Visibility.Collapsed <==> isReadOnly)
  {
    var shown := if isReadOnly then Visibility.Collapsed else Visibility.Visible;
    (if decrementButton.Some? then Some(shown) else None,
     if incrementButton.Some? then Some(shown) else None)
  }

  /** Both buttons, when present, always end up with the same visibility,
      whatever they had before. */
  lemma ReadOnlyButtonsAgree(isReadOnly: bool, d1: Visibility, i1: Visibility, d2: Visibility, i2: Visibility)
    ensures UpdateIsReadOnlyDependants(isReadOnly, Some(d1), Some(i1))
         == UpdateIsReadOnlyDependants(isReadOnly, Some(d2), Some(i2))
    ensures var r := UpdateIsReadOnlyDependants(isReadOnly, Some(d1), Some(i1)); r.0 == r.1
  {
  }
}

=== FILE: real_arith.dfy ===
/** Facts about products and quotients of reals that the proofs use by name,
    so that the solver never has to find a nonlinear argument on its own. */
module RealArith {

  /** A product with a positive factor has the sign of the other factor. */
  lemma ScaleKeepsSign(x: real, k: real)
    requires k > 0.0
    ensures x * k >= 0.0 <==> x >= 0.0
  {
  }

  /** A non-negative factor keeps the sign of the other factor. */
  lemma ProductSign(a: real, b: real)
    requires a >= 0.0
    ensures b >= 0.0 ==> a * b >= 0.0
    ensures b <= 0.0 ==> a * b <= 0.0
  {
  }

  /** Multiplying by a non-negative factor keeps an ordering. */
  lemma MulLe(a: real, x: real, y: real)
    requires a >= 0.0 && x <= y
    ensures a * x <= a * y
  {
    assert a * y - a * x == a * (y - x);
    ProductSign(a, y - x);
  }

  /** Dividing and multiplying back by the same non-zero number is the
      identity. */
  lemma DivMulCancel(x: real, k: real)
    requires k != 0.0
    ensures (x / k) * k == x
  {
  }

  /** Multiplying and dividing back by the same non-zero number is the
      identity. */
  lemma MulDivCancel(x: real, k: real)
    requires k != 0.0
    ensures x * k / k == x
  {
  }

  /** The fraction `num / den` of `w`.  Multiplying back by `den` gives
      `w * num`; the whole fraction is `w` and the empty one is 0; and a
      fraction between 0 and 1 of a non-negative `w` lies between 0 and `w`. */
  function Fraction(w: real, num: real, den: real): (q: real)
    requires den != 0.0
    ensures q * den == w * num
    ensures num == den ==> q == w
    ensures num == 0.0 ==> q == 0.0
    ensures den > 0.0 && w >= 0.0 && 0.0 <= num <= den ==> 0.0 <= q <= w
  {
    FractionBounds(w, num, den);
    w * num / den
  }

  lemma FractionBounds(w: real, num: real, den: real)
    requires den != 0.0
    ensures (w * num / den) * den == w * num
    ensures num == den ==> w * num / den == w
    ensures num == 0.0 ==> w * num / den == 0.0
    ensures den > 0.0 && w >= 0.0 && 0.0 <= num <= den ==> 0.0 <= w * num / den <= w
  {
    var q := w * num / den;
    DivMulCancel(w * num, den);
    if num == den {
      MulDivCancel(w, den);
    }
    if den > 0.0 && w >= 0.0 && 0.0 <= num <= den {
      ProductSign(w, num);
      ScaleKeepsSign(q, den);
      MulLe(w, num, den);
      assert (w - q) * den == w * den - w * num;
      ScaleKeepsSign(w - q, den);
    }
  }
}

=== FILE: wrappers.dfy ===
/** The two failure-carrying wrappers the models share. */
module Wrappers {

  /** An optional value: `None` stands for a missing template part, an
      absent window, or a maximum that is positive infinity. */
  datatype Option<+T> = None | Some(value: T)

  /** The outcome of an operation that the toolkit lets throw. */
  datatype Result<+T, +E> = Ok(value: T) | Err(error: E)
}
